=== FILE: README.md ===
# Optimal codebook generation, modelled in Dafny

This project models the deterministic part of `MatrixGeneration.py`, which
builds codebooks: `m x n` integer matrices over the alphabet `[0, b)` whose
rows (codewords) and columns are far apart.

- **Start pattern** (`getStartBook`). A `b x b` table, in closed form for odd
  bases and bordered recursively for even ones.
- **Expansion** (`expand`, `makeSquareBook`). Each symbol of the start
  pattern is replaced by the current book shifted by that symbol modulo `b`.
  This is repeated `e` times, always with the same pattern.
- **Sized book** (`makeBook`). The bottom-right `m x n` block of the
  smallest square book whose expansion count `e` gives `b^e >= max(m, n)`.
  For the binary alphabet its corner cell is flipped.
- **Scoring.**
  - The Hamming and absolute row distances.
  - The minimum over all unordered row pairs (`getMin*Dist`).
  - The best-of-candidates selection of `bestMin*DistOfRandoms`, over a given
    sequence of candidates.
  - The pair statistics that `makeBookWithInfo` records: the minimum, the
    maximum, the average distance and the average "space" (each average
    accumulated as a total over a count of pairs), for rows and columns under
    both metrics.

Matrices are `seq<seq<int>>` (`Matrices`). Failures that raise a Python
exception in the source are `Err` values of a `Result` (`Results`). The
modules follow the source's layers:

- `StartBooks`
- `Expansion`
- `Books`
- `Distances`
- `Selection`
- `Statistics`

The central theorem is the digit-sum formula (`Expansion.PowerDigits`,
`Expansion.SquareBookDigits`). Write the row `r` and the column `c` of the
square book in base `b`. The cell at `(r, c)` is the sum, over the digit
positions `t`, of the start-book symbol at row digit `t` and column digit
`t`, taken modulo `b`. `Books.MakeBookDigits` carries this formula to every
cell of the sized book.

Two points where the code behaves differently from what one might expect
from a description of it:

- **Odd start rows are not permutations.** The top row of an odd base
  `b >= 3` starts with two zeros, because its first increment is `b`, which is 0
  modulo `b`. The rows of the odd start table are therefore not
  permutations of the alphabet. For base 3 the table is
  `[[0, 0, 2], [0, 1, 1], [2, 1, 2]]` (`StartBooks.StartBookSmall`,
  `StartBooks.StartBookNotLatin`).
- **`makeBook(2, 2, 2)` is `[[0, 1], [1, 0]]`.** The model follows the code
  (`Books.MakeBookBinaryTwo`).

## Model

| member | source | states |
|---|---|---|
| StartBooks.StartBook | MatrixGeneration.py:32-50 | for every base `b >= 1` the start table is `b x b` with entries in `[0, b)`; base 1 goes through the odd branch |
| StartBooks.TopRowRecurrence | MatrixGeneration.py:34-39 | the odd top row has `b` entries, starts at 0, and entry `k + 1` is entry `k` plus `b - k` modulo `b` |
| StartBooks.StartBookOdd | MatrixGeneration.py:41-44 | for odd `b`, entry `(i, j)` is the top-row entry at `(j - i) mod b` plus `i`, modulo `b` |
| StartBooks.StartBookEven | MatrixGeneration.py:45-48 | for even `b`, row 0 and column 0 are all `b - 1`, and the lower-right block is the table of `b - 1` |
| StartBooks.StartBookSmall | MatrixGeneration.py:32-48 | the tables of bases 1, 2 and 3 are `[[0]]`, `[[1, 1], [1, 0]]` and `[[0, 0, 2], [0, 1, 1], [2, 1, 2]]` |
| StartBooks.StartBookNotLatin | MatrixGeneration.py:36-38 | row 0 of the base-3 table repeats a symbol, so odd rows need not be permutations |
| StartBooks.RotateRight | MatrixGeneration.py:43 | the rotation puts the last `i` entries first and moves every other entry `i` places right |
| Matrices.Transpose | MatrixGeneration.py:112 | the transpose has `n` rows of length `m`, cell `(j, i)` is cell `(i, j)` of the book, and the size is unchanged |
| Expansion.Expand | MatrixGeneration.py:23-29 | expanding an `L x L2` book with a `k`-row, `k2`-column pattern gives a `k L x k2 L2` book over `[0, k)` |
| Expansion.ExpandEntry | MatrixGeneration.py:24-29 | cell `(R L + i, C L2 + j)` of the expansion is `(F[i][j] + S[R][C]) mod k` |
| Expansion.ExpandBlocks | MatrixGeneration.py:23-29 | the block formula holds for every block `(R, C)` and every offset `(i, j)` |
| Expansion.QuotRemIsDivMod | MatrixGeneration.py:28-29 | the block and offset at which a concatenated position is found are the Euclidean quotient and remainder of the position |
| Expansion.SquareBook | MatrixGeneration.py:15-20 | the square book after `e` expansions (`Expansion.Power`, the loop at :18-19) has side exactly `b^(e+1)` and entries in `[0, b)` |
| Expansion.SquareBookZero | MatrixGeneration.py:16-20 | with no expansion the square book is the start book unchanged |
| Expansion.ExpandDigits | MatrixGeneration.py:18-19 | one more expansion turns a book satisfying the digit-sum formula with `e` digits into one satisfying it with `e + 1` digits |
| Expansion.PowerDigits | MatrixGeneration.py:15-29 | any pattern expanded `e` times satisfies the digit-sum formula over the `e + 1` base-`b` digits of row and column |
| Expansion.SquareBookDigits | MatrixGeneration.py:15-20 | every cell `(r, c)` of the square book is the sum of the start-book symbols at the digit pairs of `r` and `c`, modulo `b` |
| Books.LeastCover | MatrixGeneration.py:9 | the expansion count is the least `e` with `b^e >= max(m, n)`, the exact `ceil(log_b(max(m, n)))` |
| Books.TailBlock | MatrixGeneration.py:9 | for sides `1 <= m, n <= side`, the slice `[-m:, -n:]` of a square book is `m x n` and cell `(i, j)` is cell `(side - m + i, side - n + j)` |
| Books.FlipCorner | MatrixGeneration.py:10-11 | the corner becomes 0 if it was 1 and 1 otherwise; every other cell is unchanged |
| Books.MakeBook | MatrixGeneration.py:8-12 | the sized book is exactly `m x n` with entries in `[0, b)` |
| Books.SizedBlockTail | MatrixGeneration.py:9-11 | for any square over `[0, b)`, the cut-and-flip block's cell `(i, j)` is the square's cell `(side - m + i, side - n + j)`, except the binary corner, which is `1 -` that cell |
| Books.MakeBookTail | MatrixGeneration.py:8-12 | every cell `(i, j)` of the sized book is the square-book cell `(side - m + i, side - n + j)` it is cut from, except the binary corner, which is `1 -` that cell |
| Books.MakeBookDigits | MatrixGeneration.py:8-12 | every cell of the sized book is given by the digit-sum formula, flipped at the binary corner |
| Books.MakeBookBinaryTwo | MatrixGeneration.py:8-12 | `makeBook(2, 2, 2) == [[0, 1], [1, 0]]` |
| Books.BuildBook | MatrixGeneration.py:8-12 | a base below 2 and a side below 1 are errors; otherwise the result is an `m x n` book over `[0, b)` whose cell `(i, j)` is the square-book cell `(side - m + i, side - n + j)` it is cut from, except the binary corner, which is `1 -` that cell |
| Distances.HammingDist | MatrixGeneration.py:198-203 | the Hamming distance lies between 0 and the row length |
| Distances.HammingCountsMismatches | MatrixGeneration.py:198-203 | the Hamming distance is the number of indices at which the rows differ |
| Distances.AbsoluteDist | MatrixGeneration.py:180-184 | the absolute distance is never negative |
| Distances.DistSymmetric | MatrixGeneration.py:180-203 | both distances are symmetric in the two rows |
| Distances.DistZeroIffEqual | MatrixGeneration.py:180-203 | both distances are 0 exactly when the rows are equal |
| Distances.HammingAtMostAbsolute | MatrixGeneration.py:180-203 | on integer rows the Hamming distance never exceeds the absolute distance |
| Distances.HammingExample | MatrixGeneration.py:180-203 | the rows `[0, 1, 2]` and `[0, 2, 0]` are at Hamming distance 2 and absolute distance 3 |
| Selection.PairCount | MatrixGeneration.py:190-191 | the nested loop visits `m (m - 1) / 2` pairs |
| Selection.PairDistsMembers | MatrixGeneration.py:190-192 | the visited distances are exactly the distances of row pairs `i < j` |
| Selection.MinOver | MatrixGeneration.py:194 | the running minimum is at most the start and every distance, and is one of them |
| Selection.MinDistIsMinimum | MatrixGeneration.py:187-214 | the minimum `Selection.MinDist` computes is `min(m n, smallest pair distance)`, and it is `m n` when there are fewer than two rows |
| Selection.FirstMaximum | MatrixGeneration.py:218-227 | the chosen score is the largest, and every earlier score is strictly smaller, so the earliest maximum wins |
| Selection.BestOf | MatrixGeneration.py:217-242 | the chosen candidate has the highest row-plus-column score (`Selection.Score`, :219-220), and every earlier candidate scores strictly less |
| Statistics.MaxOver | MatrixGeneration.py:102-103 | the running maximum is at least the start and every distance, and is one of them |
| Statistics.TallyOverFields | MatrixGeneration.py:92-106 | a pass computes the minimum from its cap, the maximum from 0, the total and the number of the distances |
| Statistics.TallyBounds | MatrixGeneration.py:92-106 | at the end of a pass, `min * count <= total <= max * count` |
| Statistics.SpaceNonNegative | MatrixGeneration.py:105 | the accumulated space is never negative |
| Statistics.RowPass | MatrixGeneration.py:98-106 | the inner loop over later rows extends the accumulators by row `i`'s distances, in order |
| Statistics.PairPass | MatrixGeneration.py:96-106 | the nested loop leaves the accumulators of all pair distances in loop order |
| Statistics.PassCount | MatrixGeneration.py:96-106 | a pass over `m` rows counts `m (m - 1) / 2` distances; over the transpose, `n (n - 1) / 2` |
| Statistics.TallyFacts | MatrixGeneration.py:92-110 | the minimum is capped and below every distance, the maximum above every one, and the average lies between them |
| Statistics.Pass | MatrixGeneration.py:92-110 | with fewer than two rows the average divides by zero, with base 0 the space does; otherwise a summary is reported |
| Statistics.PassFacts | MatrixGeneration.py:92-110 | the reported minimum is the smallest pair distance capped at the width, the maximum is the largest, and the average lies between them |
| Statistics.Describe | MatrixGeneration.py:92-172 | it succeeds exactly when there are at least two rows, two columns and a nonzero base, with fewer than two rows reported before a zero base; on success the book, width, height and base are recorded, and the four summaries are the results of the row and column passes under the Hamming and absolute metrics |
| Statistics.DescribeFacts | MatrixGeneration.py:92-172 | whenever the record exists, every recorded minimum is capped at the compared width (`n` for rows, `m` for columns), and every recorded average lies between its minimum and maximum |

## Left out

- `makeRandomBook` and `hadamardWithNumTernaryPerLine` (MatrixGeneration.py:56-66) depend on random number generators. Best-of selection therefore takes its candidates as a given sequence. The ternary variant's sampling of indices from `range(m)` for rows of length `n` is not modelled.
- Books.LeastCover: the floating-point `math.ceil(math.log(max(m, n), base))` is replaced by the exact least exponent. At some exact powers the float logarithm rounds up (for instance `log(125, 5)`), and the source then builds a book one expansion deeper.
- Books.BuildBook: every side below 1 is refused as `InvalidShape`. In the source a side of 0 keeps the whole side through numpy's slice `[-0:]`, and a negative side drops rows or columns from the front instead (`m = -1` slices `[1:]`). That can leave the block empty, after which the binary corner assignment (MatrixGeneration.py:11) raises `IndexError`; for instance `b = 2, m = -4, n = 1`. Base 1, where the source divides by `log(1) = 0`, and bases below 1 are both reported as `InvalidBase`.
- StartBooks.StartBook: requires `b >= 1`. The source returns the scalar 0, which is not a matrix, for base 0 and for negative even bases (MatrixGeneration.py:50). A negative odd base takes the odd branch, because Python's `%` floors, and yields a 1 x 0 array.
- The `is` comparisons (MatrixGeneration.py:33, 77-83) rely on small-integer identity and are modelled as `==`.
- The status dispatch and dictionary keys of `makeBookWithInfo` (MatrixGeneration.py:75-91) and the print driver (MatrixGeneration.py:245-252) are plumbing and output. `Statistics.Describe` starts from the chosen book.
- Statistics.Pass: the float divisions for averages and space are exact `real` quotients. Python's `ZeroDivisionError` is the `NoPairs` or `InvalidBase` error.
- The running `total` that `getMin*Dist` accumulates but never returns (MatrixGeneration.py:189, 193, 208, 212) is not modelled.
- A candidate count `numCodebooks` below 1 is not modelled, because `BestOf` takes a non-empty candidate sequence. The source still draws one random book in that case.
- numpy's fixed-width integers are unbounded here; the distances of books of the sizes the source builds stay far below any overflow.

=== FILE: books.dfy ===
/**
 The sized codebook (`makeBook`): the bottom-right `m x n` block of the
 smallest square book whose expansion count covers `max(m, n)`, with the
 corner cell flipped for the binary alphabet.
 */
module Books {
  import opened Matrices
  import opened Results
  import opened StartBooks
  import opened Expansion

  function Max(x: int, y: int): int {
    if x >= y then x else y
  }

  /** Counts the exponent up from `e` (with `p == b^e`) until `b^e` reaches `x`. */
  function LeastCoverFrom(b: nat, x: nat, e: nat, p: nat): (r: nat)
    requires b >= 2 && p == Pow(b, e)
    requires forall e' :: 0 <= e' < e ==> Pow(b, e') < x
    ensures Pow(b, r) >= x
    ensures forall e' :: 0 <= e' < r ==> Pow(b, e') < x
    decreases x - p
  {
    if p >= x then e
    else
      MulIsProduct(b, p);
      MulAtLeast(p, b, p, 2);
      LeastCoverFrom(b, x, e + 1, Mul(b, p))
  }

  /** The number of expansions `makeBook` asks for: the least `e` with
      `b^e >= x`, the exact value of `ceil(log_b(x))`. */
  function LeastCover(b: nat, x: nat): (e: nat)
    requires b >= 2
    ensures Pow(b, e) >= x && Pow(b, e + 1) >= x
    ensures forall e' :: 0 <= e' < e ==> Pow(b, e') < x
  {
    var e := LeastCoverFrom(b, x, 0, 1);
    PowMonotone(b, e, e + 1);
    e
  }

  /** The last `m` rows and the last `n` columns of a square matrix. */
  function TailBlock(Q: Matrix, side: nat, m: nat, n: nat): (T: Matrix)
    requires IsMatrix(Q, side, side) && 1 <= m <= side && 1 <= n <= side
    ensures IsMatrix(T, m, n)
    ensures forall i, j :: 0 <= i < m && 0 <= j < n ==> T[i][j] == Q[side - m + i][side - n + j]
  {
    seq(m, i requires 0 <= i < m => Q[side - m + i][side - n..])
  }

  /** Cell `(0, 0)` flipped between 0 and 1 (anything but 1 becomes 1). */
  function FlipCorner(B: Matrix): (F: Matrix)
    requires |B| >= 1 && |B[0]| >= 1
    ensures |F| == |B| && forall i :: 0 <= i < |B| ==> |F[i]| == |B[i]|
    ensures F[0][0] == if B[0][0] == 1 then 0 else 1
    ensures forall i, j :: 0 <= i < |B| && 0 <= j < |B[i]| && (i, j) != (0, 0) ==> F[i][j] == B[i][j]
  {
    var corner := if B[0][0] == 1 then 0 else 1;
    B[0 := B[0][0 := corner]]
  }

  /** The bottom-right `m x n` block of `Q`, corner-flipped when `b == 2`. */
  function SizedBlock(Q: Matrix, side: nat, b: nat, m: nat, n: nat): (B: Matrix)
    requires IsMatrix(Q, side, side) && EntriesIn(Q, b) && b >= 2
    requires 1 <= m <= side && 1 <= n <= side
    ensures IsMatrix(B, m, n) && EntriesIn(B, b)
  {
    var block := TailBlock(Q, side, m, n);
    if b == 2 then FlipCorner(block) else block
  }

  /** Every cell of the sized block but the binary corner is the tail cell. */
  lemma SizedBlockCell(Q: Matrix, side: nat, b: nat, m: nat, n: nat, i: nat, j: nat)
    requires IsMatrix(Q, side, side) && EntriesIn(Q, b) && b >= 2
    requires 1 <= m <= side && 1 <= n <= side && i < m && j < n
    requires b != 2 || i != 0 || j != 0
    ensures SizedBlock(Q, side, b, m, n)[i][j] == Q[side - m + i][side - n + j]
  {
    var block := TailBlock(Q, side, m, n);
    assert block[i][j] == Q[side - m + i][side - n + j];
  }

  /** For the binary alphabet the corner of the sized block is the tail
      corner flipped. */
  lemma SizedBlockCorner(Q: Matrix, side: nat, b: nat, m: nat, n: nat)
    requires IsMatrix(Q, side, side) && EntriesIn(Q, b) && b == 2
    requires 1 <= m <= side && 1 <= n <= side
    ensures SizedBlock(Q, side, b, m, n)[0][0] == 1 - Q[side - m][side - n]
  {
    var block := TailBlock(Q, side, m, n);
    assert block[0][0] == Q[side - m][side - n];
  }

  /** The expansion count `makeBook` uses for an `m x n` book. */
  function Depth(b: nat, m: nat, n: nat): nat
    requires b >= 2
  {
    LeastCover(b, Max(m, n))
  }

  /** The side of the square book `makeBook` slices, `b^(Depth + 1)`. */
  function Side(b: nat, m: nat, n: nat): (side: nat)
    requires b >= 2
    ensures side >= m && side >= n
  {
    Pow(b, Depth(b, m, n) + 1)
  }

  /** `makeBook(b, m, n)`: an `m x n` codebook over `[0, b)`. */
  function MakeBook(b: nat, m: nat, n: nat): (B: Matrix)
    requires b >= 2 && m >= 1 && n >= 1
    ensures IsMatrix(B, m, n) && EntriesIn(B, b)
  {
    SizedBlock(SquareBook(b, Depth(b, m, n)), Side(b, m, n), b, m, n)
  }

  /** `B` is the bottom-right `m x n` block of the square `Q` of side
      `side`, except that for `b == 2` its corner is `1 -` the block's corner. */
  ghost predicate CutFrom(B: Matrix, Q: Matrix, side: nat, b: nat, m: nat, n: nat)
    requires IsMatrix(B, m, n) && IsMatrix(Q, side, side) && m <= side && n <= side
  {
    && (forall i, j :: 0 <= i < m && 0 <= j < n && (b != 2 || i != 0 || j != 0) ==>
          B[i][j] == Q[side - m + i][side - n + j])
    && (b == 2 && m >= 1 && n >= 1 ==> B[0][0] == 1 - Q[side - m][side - n])
  }

  /** The sized block is cut from `Q`. */
  lemma SizedBlockTail(Q: Matrix, side: nat, b: nat, m: nat, n: nat)
    requires IsMatrix(Q, side, side) && EntriesIn(Q, b) && b >= 2
    requires 1 <= m <= side && 1 <= n <= side
    ensures CutFrom(SizedBlock(Q, side, b, m, n), Q, side, b, m, n)
  {
    forall i, j | 0 <= i < m && 0 <= j < n && (b != 2 || i != 0 || j != 0) {
      SizedBlockCell(Q, side, b, m, n, i, j);
    }
    if b == 2 {
      SizedBlockCorner(Q, side, b, m, n);
    }
  }

  /** The sized book is the bottom-right block of the square book of depth
      `e = LeastCover(b, max(m, n))`, except that for `b == 2` the corner
      cell is `1 -` the block's corner. */
  lemma MakeBookTail(b: nat, m: nat, n: nat)
    requires b >= 2 && m >= 1 && n >= 1
    ensures CutFrom(MakeBook(b, m, n), SquareBook(b, Depth(b, m, n)), Side(b, m, n), b, m, n)
  {
    SizedBlockTail(SquareBook(b, Depth(b, m, n)), Side(b, m, n), b, m, n);
  }

  /** The sized book in terms of the start book: cell `(i, j)` is the digit
      sum at `(side - m + i, side - n + j)` modulo `b`, flipped at the corner
      for the binary alphabet. */
  lemma MakeBookDigits(b: nat, m: nat, n: nat)
    requires b >= 2 && m >= 1 && n >= 1
    ensures forall i, j :: 0 <= i < m && 0 <= j < n && (b != 2 || i != 0 || j != 0) ==>
      MakeBook(b, m, n)[i][j] ==
        DigitSum(StartBook(b), b, Side(b, m, n) - m + i, Side(b, m, n) - n + j, Depth(b, m, n)) % b
    ensures b == 2 ==>
      MakeBook(b, m, n)[0][0] ==
        1 - DigitSum(StartBook(b), b, Side(b, m, n) - m, Side(b, m, n) - n, Depth(b, m, n)) % b
  {
    MakeBookTail(b, m, n);
    SquareBookDigits(b, Depth(b, m, n));
  }

  /** The shape `makeBook(2, 2, 2)` works with: one expansion of the
      2 x 2 start book, a 4 x 4 square. */
  lemma BinaryTwoShape()
    ensures Depth(2, 2, 2) == 1 && Side(2, 2, 2) == 4
  {
    assert LeastCoverFrom(2, 2, 1, 2) == 1;
    assert LeastCover(2, 2) == 1;
    assert Pow(2, 2) == 4;
  }

  /** The digit sums of the bottom-right 2 x 2 block of the binary square book. */
  lemma BinaryTwoDigitSums()
    ensures DigitSum(StartBook(2), 2, 2, 2, 1) == 1
    ensures DigitSum(StartBook(2), 2, 2, 3, 1) == 1
    ensures DigitSum(StartBook(2), 2, 3, 2, 1) == 1
    ensures DigitSum(StartBook(2), 2, 3, 3, 1) == 0
  {
    StartBookTwo();
    assert Digit(2, 2, 0) == 0 && Digit(2, 2, 1) == 1;
    assert Digit(3, 2, 0) == 1 && Digit(3, 2, 1) == 1;
  }

  /** The bottom-right 2 x 2 block of the binary square book of depth 1. */
  lemma BinaryTwoSquare(i: nat, j: nat)
    requires i < 2 && j < 2
    ensures SquareBook(2, 1)[2 + i][2 + j] == if i == 1 && j == 1 then 0 else 1
  {
    assert Pow(2, 2) == 4;
    PowerEntry(StartBook(2), 2, 1, 2 + i, 2 + j);
    BinaryTwoDigitSum(i, j);
  }

  lemma BinaryTwoDigitSum(i: nat, j: nat)
    requires i < 2 && j < 2
    ensures DigitSum(StartBook(2), 2, 2 + i, 2 + j, 1) % 2 == if i == 1 && j == 1 then 0 else 1
  {
    BinaryTwoDigitSums();
  }

  /** Cell `(i, j)` of `makeBook(2, 2, 2)`: 0 on the diagonal, 1 off it. */
  lemma BinaryTwoCell(i: nat, j: nat)
    requires i < 2 && j < 2
    ensures MakeBook(2, 2, 2)[i][j] == if i == j then 0 else 1
  {
    BinaryTwoShape();
    BinaryTwoSquare(i, j);
    if i == 0 && j == 0 {
      SizedBlockCorner(SquareBook(2, 1), 4, 2, 2, 2);
    } else {
      SizedBlockCell(SquareBook(2, 1), 4, 2, 2, 2, i, j);
    }
  }

  /** A 2 x 2 matrix is determined by its four cells. */
  lemma TwoByTwo(B: Matrix, p: int, q: int, r: int, s: int)
    requires IsMatrix(B, 2, 2)
    requires B[0][0] == p && B[0][1] == q && B[1][0] == r && B[1][1] == s
    ensures B == [[p, q], [r, s]]
  {
    assert B[0] == [p, q] && B[1] == [r, s];
  }

  /** The binary 2 x 2 book. */
  lemma MakeBookBinaryTwo()
    ensures MakeBook(2, 2, 2) == [[0, 1], [1, 0]]
  {
    BinaryTwoCell(0, 0);
    BinaryTwoCell(0, 1);
    BinaryTwoCell(1, 0);
    BinaryTwoCell(1, 1);
    TwoByTwo(MakeBook(2, 2, 2), 0, 1, 1, 0);
  }

  /** `makeBook` with its failures: a base below 2 makes the source's
      logarithm fail, and a side below 1 is refused. A book it returns is
      the sized book: cut from the square book, corner flipped for `b == 2`. */
  function BuildBook(b: int, m: int, n: int): (r: Result<Matrix>)
    ensures b < 2 ==> r == Err(InvalidBase)
    ensures b >= 2 && (m < 1 || n < 1) ==> r == Err(InvalidShape)
    ensures r.Ok? <==> b >= 2 && m >= 1 && n >= 1
    ensures r.Ok? ==> IsMatrix(r.value, m, n) && EntriesIn(r.value, b)
    ensures r.Ok? ==> CutFrom(r.value, SquareBook(b, Depth(b, m, n)), Side(b, m, n), b, m, n)
  {
    if b < 2 then Err(InvalidBase)
    else if m < 1 || n < 1 then Err(InvalidShape)
    else
      MakeBookTail(b, m, n);
      Ok(MakeBook(b, m, n))
  }
}

=== FILE: distances.dfy ===
/**
 Row distances (`getHammingDist`, `getAbsoluteDist`): both walk the two rows
 index by index, so both are defined here on prefixes, the last index being
 the one the loop adds last.
 */
module Distances {

  /** The two metrics the codebooks are scored by. */
  datatype Metric = Hamming | Absolute

  function Abs(x: int): nat {
    if x < 0 then -x else x
  }

  /** `getHammingDist`: the number of indices where the rows differ. */
  function HammingDist(a: seq<int>, b: seq<int>): (d: int)
    requires |a| == |b|
    ensures 0 <= d <= |a|
  {
    if |a| == 0 then 0
    else HammingDist(a[..|a| - 1], b[..|b| - 1]) + (if a[|a| - 1] != b[|b| - 1] then 1 else 0)
  }

  /** `getAbsoluteDist`: the sum of the entrywise absolute differences. */
  function AbsoluteDist(a: seq<int>, b: seq<int>): (d: int)
    requires |a| == |b|
    ensures d >= 0
  {
    if |a| == 0 then 0
    else AbsoluteDist(a[..|a| - 1], b[..|b| - 1]) + Abs(a[|a| - 1] - b[|b| - 1])
  }

  /** The distance a metric assigns to two rows of equal length. */
  function Dist(metric: Metric, a: seq<int>, b: seq<int>): int
    requires |a| == |b|
  {
    match metric
    case Hamming => HammingDist(a, b)
    case Absolute => AbsoluteDist(a, b)
  }

  /** The indices below `k` where the rows differ. */
  function Mismatches(a: seq<int>, b: seq<int>, k: nat): (s: set<nat>)
    requires k <= |a| == |b|
    ensures forall i: nat :: i in s <==> i < k && a[i] != b[i]
  {
    set i: nat | i < k && a[i] != b[i]
  }

  /** The Hamming distance counts exactly the mismatching indices. */
  lemma {:induction false} HammingCountsMismatches(a: seq<int>, b: seq<int>)
    requires |a| == |b|
    ensures HammingDist(a, b) == |Mismatches(a, b, |a|)|
  {
    if |a| > 0 {
      var k := |a| - 1;
      var a', b' := a[..k], b[..k];
      HammingCountsMismatches(a', b');
      assert Mismatches(a', b', k) == Mismatches(a, b, k);
      if a[k] != b[k] {
        assert Mismatches(a, b, k + 1) == Mismatches(a, b, k) + {k};
      } else {
        assert Mismatches(a, b, k + 1) == Mismatches(a, b, k);
      }
    }
  }

  /** Both metrics are symmetric. */
  lemma {:induction false} DistSymmetric(metric: Metric, a: seq<int>, b: seq<int>)
    requires |a| == |b|
    ensures Dist(metric, a, b) == Dist(metric, b, a)
  {
    if |a| > 0 {
      DistSymmetric(metric, a[..|a| - 1], b[..|b| - 1]);
    }
  }

  /** Both metrics vanish exactly on equal rows. */
  lemma {:induction false} DistZeroIffEqual(metric: Metric, a: seq<int>, b: seq<int>)
    requires |a| == |b|
    ensures Dist(metric, a, b) == 0 <==> a == b
  {
    if |a| > 0 {
      var k := |a| - 1;
      DistZeroIffEqual(metric, a[..k], b[..k]);
      assert a == a[..k] + [a[k]] && b == b[..k] + [b[k]];
      if a == b {
        assert a[..k] == b[..k];
      }
    }
  }

  /** On integer rows every mismatch costs at least 1 in absolute distance. */
  lemma {:induction false} HammingAtMostAbsolute(a: seq<int>, b: seq<int>)
    requires |a| == |b|
    ensures HammingDist(a, b) <= AbsoluteDist(a, b)
  {
    if |a| > 0 {
      HammingAtMostAbsolute(a[..|a| - 1], b[..|b| - 1]);
    }
  }

  lemma HammingExample()
    ensures HammingDist([0, 1, 2], [0, 2, 0]) == 2
    ensures AbsoluteDist([0, 1, 2], [0, 2, 0]) == 3
  {
    assert [0, 1, 2][..2] == [0, 1] && [0, 1] [..1] == [0];
    assert [0, 2, 0][..2] == [0, 2] && [0, 2] [..1] == [0];
  }
}

=== FILE: expansion.dfy ===
/**
 The recursive expansion engine (`expand`, `makeSquareBook`): every cell of
 the `k x k` pattern is replaced by a copy of the working matrix shifted by
 that cell's value modulo `k`, and this is repeated with the same pattern.
 */
module Expansion {
  import opened Matrices
  import opened StartBooks

  /** The working matrix with `a` added to every entry, modulo `k`. */
  function Shift(F: Matrix, a: int, k: nat): (G: Matrix)
    requires k >= 1
    ensures |G| == |F| && forall i :: 0 <= i < |F| ==> |G[i]| == |F[i]|
    ensures forall i, j :: 0 <= i < |F| && 0 <= j < |F[i]| ==> G[i][j] == (F[i][j] + a) % k
  {
    seq(|F|, i requires 0 <= i < |F| =>
      seq(|F[i]|, j requires 0 <= j < |F[i]| => (F[i][j] + a) % k))
  }

  /** The list `rotations` of the source: the `k` shifted copies, indexed by the shift. */
  function Rotations(F: Matrix, k: nat): (rots: seq<Matrix>)
    requires k >= 1
    ensures |rots| == k && forall a :: 0 <= a < k ==> rots[a] == Shift(F, a, k)
  {
    seq(k, a requires 0 <= a < k => Shift(F, a, k))
  }

  /** The block that `x` falls in when a line is cut into blocks of `L`:
      `x div L`, counted by repeated subtraction. */
  function Quot(x: nat, L: nat): nat
    requires L >= 1
  {
    if x < L then 0 else 1 + Quot(x - L, L)
  }

  /** The offset of `x` inside its block of `L`: `x mod L`. */
  function Rem(x: nat, L: nat): (o: nat)
    requires L >= 1
    ensures o < L
  {
    if x < L then x else Rem(x - L, L)
  }

  /** Block and offset are Euclidean quotient and remainder. */
  lemma {:induction false} QuotRemIsDivMod(x: nat, L: nat)
    requires L >= 1
    ensures Quot(x, L) == x / L && Rem(x, L) == x % L
  {
    if x < L {
      DivModUnique(x, L, 0, x);
    } else {
      QuotRemIsDivMod(x - L, L);
      DivModSplit(x - L, L);
      DivModUnique(x, L, Quot(x - L, L) + 1, Rem(x - L, L));
    }
  }

  /** Offset `i` in block `R` is position `R L + i`. */
  lemma {:induction false} QuotRemOfBlock(R: nat, L: nat, i: nat)
    requires i < L
    ensures Quot(Mul(R, L) + i, L) == R && Rem(Mul(R, L) + i, L) == i
  {
    if R > 0 {
      QuotRemOfBlock(R - 1, L, i);
      assert Mul(R, L) + i - L == Mul(R - 1, L) + i;
    }
  }

  /** A position among `k` blocks of `L` lies in a block below `k`. */
  lemma {:induction false} QuotBound(x: nat, k: nat, L: nat)
    requires x < Mul(k, L)
    ensures L >= 1 && Quot(x, L) < k
  {
    if k == 0 {
      assert false;
    } else if x >= L {
      QuotBound(x - L, k - 1, L);
    } else if L == 0 {
      MulByZero(k);
    }
  }

  lemma {:induction false} MulByZero(k: nat)
    ensures Mul(k, 0) == 0
  {
    if k > 0 {
      MulByZero(k - 1);
    }
  }

  /** Position `R L + i` with `R < k` and `i < L` lies among `k` blocks of `L`. */
  lemma {:induction false} BlockInside(R: nat, k: nat, L: nat, i: nat)
    requires R < k && i < L
    ensures Mul(R, L) + i < Mul(k, L)
  {
    if R < k - 1 {
      BlockInside(R, k - 1, L, i);
    }
  }

  /** Cell `(r, c)` of `expand(S, F)`: the cell at offset `(r mod L, c mod L2)`
      of the block `rotations[S[r div L][c div L2]]` that replaces the pattern
      symbol at `(r div L, c div L2)`, for `L x L2` the shape of `F`. */
  function Cell(S: Matrix, F: Matrix, r: nat, c: nat): (v: int)
    requires |S| >= 1 && Rect(S) && EntriesIn(S, |S|) && Rect(F)
    requires r < Mul(|S|, |F|) && c < Mul(Cols(S), Cols(F))
    ensures 0 <= v < |S|
  {
    var k, L, L2 := |S|, |F|, Cols(F);
    QuotBound(r, k, L);
    QuotBound(c, Cols(S), L2);
    var block := Rotations(F, k)[S[Quot(r, L)][Quot(c, L2)]];
    block[Rem(r, L)][Rem(c, L2)]
  }

  /** `expand(S, F)`: every cell of the `k`-row pattern `S` is replaced by
      the copy of `F` shifted by that cell, giving a `k L x k2 L2` matrix
      over `[0, k)`. */
  function Expand(S: Matrix, F: Matrix): (E: Matrix)
    requires |S| >= 1 && Rect(S) && EntriesIn(S, |S|) && Rect(F)
    ensures IsMatrix(E, Mul(|S|, |F|), Mul(Cols(S), Cols(F))) && EntriesIn(E, |S|)
  {
    seq(Mul(|S|, |F|), r requires 0 <= r < Mul(|S|, |F|) =>
      seq(Mul(Cols(S), Cols(F)), c requires 0 <= c < Mul(Cols(S), Cols(F)) => Cell(S, F, r, c)))
  }

  /** Block `(R, C)` of the expansion is `F` shifted by `S[R][C]` modulo `k`. */
  lemma ExpandEntry(S: Matrix, F: Matrix, R: nat, C: nat, i: nat, j: nat)
    requires |S| >= 1 && Rect(S) && EntriesIn(S, |S|) && Rect(F)
    requires R < |S| && C < Cols(S) && i < |F| && j < Cols(F)
    ensures |Expand(S, F)| == |S| * |F| && R * |F| + i < |S| * |F|
    ensures |Expand(S, F)[R * |F| + i]| == Cols(S) * Cols(F) && C * Cols(F) + j < Cols(S) * Cols(F)
    ensures Expand(S, F)[R * |F| + i][C * Cols(F) + j] == (F[i][j] + S[R][C]) % |S|
  {
    MulIsProduct(R, |F|);
    MulIsProduct(C, Cols(F));
    MulIsProduct(|S|, |F|);
    MulIsProduct(Cols(S), Cols(F));
    ExpandAt(S, F, R * |F| + i, C * Cols(F) + j, R, C, i, j);
  }

  /** `Cell` read through the block and offset it finds. */
  lemma CellFromBlock(S: Matrix, F: Matrix, r: nat, c: nat, R: nat, C: nat, i: nat, j: nat)
    requires |S| >= 1 && Rect(S) && EntriesIn(S, |S|) && Rect(F)
    requires R < |S| && C < Cols(S) && i < |F| && j < Cols(F)
    requires r < Mul(|S|, |F|) && c < Mul(Cols(S), Cols(F))
    requires Quot(r, |F|) == R && Rem(r, |F|) == i && Quot(c, Cols(F)) == C && Rem(c, Cols(F)) == j
    ensures Cell(S, F, r, c) == (F[i][j] + S[R][C]) % |S|
  {
    var rots := Rotations(F, |S|);
    assert Cell(S, F, r, c) == rots[S[R][C]][i][j];
  }

  /** The cell at offset `(i, j)` inside block `(R, C)` is the block's
      rotation of `F` at `(i, j)`. */
  lemma CellOfBlock(S: Matrix, F: Matrix, r: nat, c: nat, R: nat, C: nat, i: nat, j: nat)
    requires |S| >= 1 && Rect(S) && EntriesIn(S, |S|) && Rect(F)
    requires R < |S| && C < Cols(S) && i < |F| && j < Cols(F)
    requires r == Mul(R, |F|) + i && c == Mul(C, Cols(F)) + j
    requires r < Mul(|S|, |F|) && c < Mul(Cols(S), Cols(F))
    ensures Cell(S, F, r, c) == (F[i][j] + S[R][C]) % |S|
  {
    QuotRemOfBlock(R, |F|, i);
    QuotRemOfBlock(C, Cols(F), j);
    CellFromBlock(S, F, r, c, R, C, i, j);
  }

  /** Every in-range cell of the expansion is its `Cell`. */
  lemma ExpandCell(S: Matrix, F: Matrix, r: nat, c: nat)
    requires |S| >= 1 && Rect(S) && EntriesIn(S, |S|) && Rect(F)
    requires r < Mul(|S|, |F|) && c < Mul(Cols(S), Cols(F))
    ensures r < |Expand(S, F)| && c < |Expand(S, F)[r]|
    ensures Expand(S, F)[r][c] == Cell(S, F, r, c)
  {
  }

  /** `ExpandEntry` with the cell's coordinates `(r, c)` named by the caller. */
  lemma ExpandAt(S: Matrix, F: Matrix, r: nat, c: nat, R: nat, C: nat, i: nat, j: nat)
    requires |S| >= 1 && Rect(S) && EntriesIn(S, |S|) && Rect(F)
    requires R < |S| && C < Cols(S) && i < |F| && j < Cols(F)
    requires r == Mul(R, |F|) + i && c == Mul(C, Cols(F)) + j
    ensures r < Mul(|S|, |F|) && c < Mul(Cols(S), Cols(F))
    ensures Expand(S, F)[r][c] == (F[i][j] + S[R][C]) % |S|
  {
    BlockInside(R, |S|, |F|, i);
    BlockInside(C, Cols(S), Cols(F), j);
    ExpandCell(S, F, r, c);
    CellOfBlock(S, F, r, c, R, C, i, j);
  }

  /** Cell `(r, c)` exists in `E` and holds `v`. */
  ghost predicate InBlock(E: Matrix, r: int, c: int, v: int) {
    0 <= r < |E| && 0 <= c < |E[r]| && E[r][c] == v
  }

  /** The block formula for every cell of the expansion. */
  lemma ExpandBlocks(S: Matrix, F: Matrix)
    requires |S| >= 1 && Rect(S) && EntriesIn(S, |S|) && Rect(F)
    ensures forall R, C, i, j ::
      0 <= R < |S| && 0 <= C < Cols(S) && 0 <= i < |F| && 0 <= j < Cols(F) ==>
        InBlock(Expand(S, F), R * |F| + i, C * Cols(F) + j, (F[i][j] + S[R][C]) % |S|)
  {
    forall R, C, i, j | 0 <= R < |S| && 0 <= C < Cols(S) && 0 <= i < |F| && 0 <= j < Cols(F)
      ensures InBlock(Expand(S, F), R * |F| + i, C * Cols(F) + j, (F[i][j] + S[R][C]) % |S|)
    {
      ExpandEntry(S, F, R, C, i, j);
    }
  }

  /** The pattern `S` expanded `e` times, always with `S` itself as pattern. */
  function Power(S: Matrix, e: nat): (Q: Matrix)
    requires |S| >= 1 && IsMatrix(S, |S|, |S|) && EntriesIn(S, |S|)
    ensures IsMatrix(Q, Pow(|S|, e + 1), Pow(|S|, e + 1)) && EntriesIn(Q, |S|)
  {
    if e == 0 then PowOne(|S|); S
    else
      var F := Power(S, e - 1);
      assert Cols(F) == Pow(|S|, e);
      PowStep(|S|, e);
      Expand(S, F)
  }

  /** `makeSquareBook(b, e)`: the start book expanded `e` times. */
  function SquareBook(b: nat, e: nat): (Q: Matrix)
    requires b >= 1
    ensures IsMatrix(Q, Pow(b, e + 1), Pow(b, e + 1)) && EntriesIn(Q, b)
  {
    Power(StartBook(b), e)
  }

  /** With no expansion the square book is the start book itself. */
  lemma SquareBookZero(b: nat)
    requires b >= 1
    ensures SquareBook(b, 0) == StartBook(b)
  {
  }

  /** Base-`b` digit `t` of `x` (digit 0 is the least significant). */
  function Digit(x: nat, b: nat, t: nat): (d: nat)
    requires b >= 1
    ensures d < b
  {
    (x / Pow(b, t)) % b
  }

  /** The start-book symbols at the digit pairs `0..e` of `r` and `c`, added up. */
  function DigitSum(S: Matrix, b: nat, r: nat, c: nat, e: nat): int
    requires b >= 1 && IsMatrix(S, b, b)
  {
    S[Digit(r, b, e)][Digit(c, b, e)] + (if e == 0 then 0 else DigitSum(S, b, r, c, e - 1))
  }

  /** Digits below position `e` survive taking the remainder modulo `b^e`. */
  lemma DigitBelow(x: nat, b: nat, t: nat, e: nat)
    requires b >= 1 && t < e
    ensures Digit(x % Pow(b, e), b, t) == Digit(x, b, t)
  {
    var Q, g := Pow(b, t), Pow(b, e - t - 1);
    assert Pow(b, e) == (g * b) * Q by {
      PowAdd(b, e - t, t);
      PowStep(b, e - t - 1);
      MulComm(b, g);
    }
    RemainderKeepsLowDigit(x, b, Q, g, Pow(b, e));
  }

  /** `(x mod (g b Q)) / Q` and `x / Q` agree modulo `b`. */
  lemma RemainderKeepsLowDigit(x: nat, b: nat, Q: nat, g: nat, P: nat)
    requires b >= 1 && Q >= 1 && g >= 1 && P == (g * b) * Q
    ensures ((x % P) / Q) % b == (x / Q) % b
  {
    var high, low := x / P, x % P;
    var h := high * g;
    assert x == (h * b) * Q + low by {
      assert x == high * P + low;
      MulAssoc(high, g * b, Q);
      MulAssoc(high, g, b);
    }
    assert x / Q == h * b + low / Q by {
      DivModShift(h * b, Q, low);
    }
    DivModShift(h, b, low / Q);
  }

  lemma {:induction false} DigitSumBelow(S: Matrix, b: nat, r: nat, c: nat, t: nat, e: nat)
    requires b >= 1 && IsMatrix(S, b, b) && t < e
    ensures DigitSum(S, b, r % Pow(b, e), c % Pow(b, e), t) == DigitSum(S, b, r, c, t)
  {
    DigitBelow(r, b, t, e);
    DigitBelow(c, b, t, e);
    if t > 0 {
      DigitSumBelow(S, b, r, c, t - 1, e);
    }
  }

  /** Splits `x < b * P` into a block index `R < b` and an offset `i < P`. */
  lemma SplitIndex(x: nat, P: nat, b: nat) returns (R: nat, i: nat)
    requires P >= 1 && x < b * P
    ensures x == R * P + i && R < b && i < P
  {
    R, i := x / P, x % P;
    DivModSplit(x, P);
    if R >= b {
      MulAtLeast(R, P, b, P);
    }
  }

  /** Splits `x < b^(e+1)` into its top digit `R` and the remainder `i < b^e`. */
  lemma SplitDigit(x: nat, b: nat, e: nat) returns (R: nat, i: nat)
    requires b >= 1 && x < Pow(b, e + 1)
    ensures x == Mul(R, Pow(b, e)) + i && R < b && i < Pow(b, e)
  {
    PowStep(b, e);
    R, i := SplitIndex(x, Pow(b, e), b);
    MulIsProduct(R, Pow(b, e));
  }

  /** Block index and offset are the top digit and the remainder modulo `b^e`. */
  lemma DigitOfBlock(b: nat, e: nat, R: nat, i: nat)
    requires b >= 1 && R < b && i < Pow(b, e)
    ensures Digit(Mul(R, Pow(b, e)) + i, b, e) == R
    ensures (Mul(R, Pow(b, e)) + i) % Pow(b, e) == i
  {
    var P := Pow(b, e);
    var x := R * P + i;
    MulIsProduct(R, P);
    DivModUnique(x, P, R, i);
    DivModUnique(R, b, 0, R);
  }

  /** The digit sum up to `e` at `(R b^e + i, C b^e + j)` is the top digit
      pair's symbol `S[R][C]` plus the digit sum at `(i, j)`. */
  lemma DigitSumTop(S: Matrix, b: nat, e: nat, r: nat, c: nat, R: nat, i: nat, C: nat, j: nat)
    requires b >= 1 && IsMatrix(S, b, b) && e >= 1
    requires R < b && C < b && i < Pow(b, e) && j < Pow(b, e)
    requires r == Mul(R, Pow(b, e)) + i && c == Mul(C, Pow(b, e)) + j
    ensures DigitSum(S, b, r, c, e) == S[R][C] + DigitSum(S, b, i, j, e - 1)
  {
    DigitOfBlock(b, e, R, i);
    DigitOfBlock(b, e, C, j);
    DigitSumBelow(S, b, r, c, e - 1, e);
  }

  /** The same, modulo `b`, with the lower digits already reduced. */
  lemma DigitSumStep(S: Matrix, b: nat, e: nat, r: nat, c: nat, R: nat, i: nat, C: nat, j: nat, x: int)
    requires b >= 1 && IsMatrix(S, b, b) && e >= 1
    requires R < b && C < b && i < Pow(b, e) && j < Pow(b, e)
    requires r == Mul(R, Pow(b, e)) + i && c == Mul(C, Pow(b, e)) + j
    requires x == DigitSum(S, b, i, j, e - 1) % b
    ensures (x + S[R][C]) % |S| == DigitSum(S, b, r, c, e) % b
  {
    ModAddLeft(DigitSum(S, b, i, j, e - 1), S[R][C], b);
    DigitSumTop(S, b, e, r, c, R, i, C, j);
  }

  /** `Q` is a `b^(e+1)`-square whose every cell is the digit sum up to `e`
      of its coordinates, modulo `b`. */
  ghost predicate DigitFormula(Q: Matrix, S: Matrix, b: nat, e: nat)
    requires b >= 1 && IsMatrix(S, b, b)
  {
    IsMatrix(Q, Pow(b, e + 1), Pow(b, e + 1)) &&
    forall r, c :: 0 <= r < Pow(b, e + 1) && 0 <= c < Pow(b, e + 1) ==>
      Q[r][c] == DigitSum(S, b, r, c, e) % b
  }

  /** With no expansion a cell is its own one-digit sum. */
  lemma PowerBase(S: Matrix, b: nat, r: nat, c: nat)
    requires b >= 1 && b == |S| && IsMatrix(S, b, b) && EntriesIn(S, b)
    requires r < b && c < b
    ensures S[r][c] == DigitSum(S, b, r, c, 0) % b
  {
    assert Pow(b, 0) == 1;
    assert Digit(r, b, 0) == r by {
      DivModUnique(r, b, 0, r);
    }
    assert Digit(c, b, 0) == c by {
      DivModUnique(c, b, 0, c);
    }
    DivModUnique(S[r][c], b, 0, S[r][c]);
  }

  /** The pattern itself satisfies the digit-sum formula with one digit. */
  lemma BaseDigits(S: Matrix, b: nat)
    requires b >= 1 && b == |S| && IsMatrix(S, b, b) && EntriesIn(S, b)
    ensures DigitFormula(S, S, b, 0)
  {
    PowOne(b);
    forall r, c | 0 <= r < b && 0 <= c < b
      ensures S[r][c] == DigitSum(S, b, r, c, 0) % b
    {
      PowerBase(S, b, r, c);
    }
  }

  /** One expansion step on a single cell: block `(R, C)` adds the pattern
      symbol `S[R][C]` to the digit sum the offset `(i, j)` has in `F`. */
  lemma ExpandDigitCell(S: Matrix, F: Matrix, b: nat, e: nat, r: nat, c: nat, R: nat, i: nat, C: nat, j: nat)
    requires b >= 1 && b == |S| && IsMatrix(S, b, b) && EntriesIn(S, b) && e >= 1
    requires IsMatrix(F, Pow(b, e), Pow(b, e))
    requires R < b && C < b && i < Pow(b, e) && j < Pow(b, e)
    requires r == Mul(R, Pow(b, e)) + i && c == Mul(C, Pow(b, e)) + j
    requires F[i][j] == DigitSum(S, b, i, j, e - 1) % b
    ensures r < |Expand(S, F)| && c < |Expand(S, F)[r]|
    ensures Expand(S, F)[r][c] == DigitSum(S, b, r, c, e) % b
  {
    DigitSumStep(S, b, e, r, c, R, i, C, j, F[i][j]);
    ExpandAt(S, F, r, c, R, C, i, j);
  }

  /** One expansion step carries the digit-sum formula from `e - 1` to `e`. */
  lemma ExpandDigits(S: Matrix, F: Matrix, b: nat, e: nat)
    requires b >= 1 && b == |S| && IsMatrix(S, b, b) && EntriesIn(S, b) && e >= 1
    requires DigitFormula(F, S, b, e - 1)
    ensures DigitFormula(Expand(S, F), S, b, e)
  {
    var E, P := Expand(S, F), Pow(b, e);
    PowStep(b, e);
    MulIsProduct(b, P);
    assert IsMatrix(E, Pow(b, e + 1), Pow(b, e + 1));
    forall r, c | 0 <= r < Pow(b, e + 1) && 0 <= c < Pow(b, e + 1)
      ensures E[r][c] == DigitSum(S, b, r, c, e) % b
    {
      var R, i := SplitDigit(r, b, e);
      var C, j := SplitDigit(c, b, e);
      ExpandDigitCell(S, F, b, e, r, c, R, i, C, j);
    }
  }

  /** The pattern expanded `e` times satisfies the digit-sum formula. */
  lemma {:induction false} PowerDigits(S: Matrix, b: nat, e: nat)
    requires b >= 1 && b == |S| && IsMatrix(S, b, b) && EntriesIn(S, b)
    ensures DigitFormula(Power(S, e), S, b, e)
  {
    if e == 0 {
      BaseDigits(S, b);
    } else {
      PowerDigits(S, b, e - 1);
      ExpandDigits(S, Power(S, e - 1), b, e);
    }
  }

  /** The digit-sum formula at one cell of the pattern expanded `e` times. */
  lemma PowerEntry(S: Matrix, b: nat, e: nat, r: nat, c: nat)
    requires b >= 1 && b == |S| && IsMatrix(S, b, b) && EntriesIn(S, b)
    requires r < Pow(b, e + 1) && c < Pow(b, e + 1)
    ensures Power(S, e)[r][c] == DigitSum(S, b, r, c, e) % b
  {
    PowerDigits(S, b, e);
  }

  /** The digit-sum formula: the entry at row `r` and column `c` of the square
      book is the sum, over the base-`b` digit positions, of the start-book
      entry at the row digit and column digit, taken modulo `b`. */
  lemma SquareBookDigits(b: nat, e: nat)
    requires b >= 1
    ensures forall r, c :: 0 <= r < Pow(b, e + 1) && 0 <= c < Pow(b, e + 1) ==>
      SquareBook(b, e)[r][c] == DigitSum(StartBook(b), b, r, c, e) % b
  {
    PowerDigits(StartBook(b), b, e);
  }
}

=== FILE: matrices.dfy ===
/**
 Integer matrices as sequences of rows, plus the small pieces of arithmetic
 (powers, Euclidean division facts) that the codebook construction needs.
 */
module Matrices {

  /** A matrix is a sequence of rows; a codebook's rows are its codewords. */
  type Matrix = seq<seq<int>>

  /** Every row of `M` has `cols` entries and there are `rows` of them. */
  ghost predicate IsMatrix(M: Matrix, rows: nat, cols: nat) {
    |M| == rows && forall i :: 0 <= i < rows ==> |M[i]| == cols
  }

  /** Every entry of `M` is a symbol of the alphabet `[0, b)`. */
  ghost predicate EntriesIn(M: Matrix, b: int) {
    forall i, j :: 0 <= i < |M| && 0 <= j < |M[i]| ==> 0 <= M[i][j] < b
  }

  /** The row length of a matrix, read off its first row (0 for no rows). */
  function Cols(M: Matrix): nat {
    if |M| == 0 then 0 else |M[0]|
  }

  /** All rows have the same length. */
  ghost predicate Rect(M: Matrix) {
    IsMatrix(M, |M|, Cols(M))
  }

  /** The number of entries, numpy's `size`. */
  function Size(M: Matrix): nat {
    |M| * Cols(M)
  }

  /** Columns become rows. */
  function Transpose(M: Matrix): (T: Matrix)
    requires Rect(M)
    ensures IsMatrix(T, Cols(M), |M|)
    ensures forall j, i :: 0 <= j < Cols(M) && 0 <= i < |M| ==> T[j][i] == M[i][j]
    ensures Rect(T) && Size(T) == Size(M)
  {
    seq(Cols(M), j requires 0 <= j < Cols(M) => seq(|M|, i requires 0 <= i < |M| => M[i][j]))
  }

  /** `x * y` as `y` added `x` times.  Powers are built from it, so that
      unfolding a power adds only a sum to a proof's context. */
  function Mul(x: nat, y: nat): nat {
    if x == 0 then 0 else y + Mul(x - 1, y)
  }

  lemma {:induction false} MulIsProduct(x: nat, y: nat)
    ensures Mul(x, y) == x * y
  {
    if x > 0 {
      MulIsProduct(x - 1, y);
    }
  }

  /** `b` to the power `e`; positive for a positive base. */
  function Pow(b: nat, e: nat): (p: nat)
    ensures b >= 1 ==> p >= 1
  {
    if e == 0 then 1 else Mul(b, Pow(b, e - 1))
  }

  /** One more factor: `b^(e + 1) == b * b^e`. */
  lemma PowStep(b: nat, e: nat)
    ensures Pow(b, e + 1) == b * Pow(b, e)
  {
    MulIsProduct(b, Pow(b, e));
  }

  lemma PowOne(b: nat)
    ensures Pow(b, 1) == b
  {
    PowStep(b, 0);
  }

  /** Exponents add: `b^(a + c) == b^a * b^c`. */
  lemma {:induction false} PowAdd(b: nat, a: nat, c: nat)
    ensures Pow(b, a + c) == Pow(b, a) * Pow(b, c)
  {
    if a > 0 {
      PowAdd(b, a - 1, c);
      var x, y := Pow(b, a - 1), Pow(b, c);
      PowStep(b, a - 1 + c);
      PowStep(b, a - 1);
      MulAssoc(b, x, y);
    }
  }

  /** Powers of a base of at least 1 do not decrease. */
  lemma {:induction false} PowMonotone(b: nat, a: nat, c: nat)
    requires b >= 1 && a <= c
    ensures Pow(b, a) <= Pow(b, c)
  {
    if a < c {
      PowMonotone(b, a, c - 1);
      PowStep(b, c - 1);
      MulAtLeast(b, Pow(b, c - 1), 1, Pow(b, c - 1));
    }
  }

  lemma MulComm(x: int, y: int)
    ensures x * y == y * x
  {
  }

  lemma MulAssoc(x: int, y: int, z: int)
    ensures x * (y * z) == (x * y) * z
  {
  }

  lemma MulAtLeast(x: int, y: int, a: int, c: int)
    requires x >= a >= 0 && y >= c >= 0
    ensures x * y >= a * c
  {
    assert x * y - a * c == (x - a) * y + a * (y - c);
    assert (x - a) * y >= 0 && a * (y - c) >= 0;
  }

  /** Quotient and remainder are determined by any decomposition `x == q * d + r`. */
  lemma DivModUnique(x: int, d: int, q: int, r: int)
    requires d > 0 && 0 <= r < d && x == q * d + r
    ensures x / d == q && x % d == r
  {
    var q', r' := x / d, x % d;
    assert x == q' * d + r';
    assert (q - q') * d == r' - r;
    if q > q' {
      MulAtLeast(q - q', d, 1, d);
    } else if q < q' {
      MulAtLeast(q' - q, d, 1, d);
    }
  }

  /** Euclid's decomposition of `x` by `d`. */
  lemma DivModSplit(x: int, d: int)
    requires d > 0
    ensures x == (x / d) * d + x % d && 0 <= x % d < d
  {
  }

  /** `(x % d + y) % d == (x + y) % d` */
  lemma ModAddLeft(x: int, y: int, d: int)
    requires d > 0
    ensures (x % d + y) % d == (x + y) % d
  {
    var s := x % d + y;
    DivModUnique(x + y, d, x / d + s / d, s % d);
  }

  /** `(q * d + x) / d == q + x / d` and the remainder of `x` is kept. */
  lemma DivModShift(q: int, d: int, x: int)
    requires d > 0
    ensures (q * d + x) / d == q + x / d
    ensures (q * d + x) % d == x % d
  {
    assert q * d + x == (q + x / d) * d + x % d;
    DivModUnique(q * d + x, d, q + x / d, x % d);
  }
}

=== FILE: results.dfy ===
/**
 The error outcomes of the codebook operations: the source raises a Python
 exception in each of these cases, modelled here as an `Err` value.
 */
module Results {

  datatype Error =
    | InvalidBase   // the base is unusable: a logarithm to it or a division by it fails
    | InvalidShape  // a requested side is not positive
    | NoPairs       // fewer than two rows or columns: an average over no pairs divides by zero

  datatype Result<+T> = Ok(value: T) | Err(error: Error)
}

=== FILE: selection.dfy ===
/**
 Minimum pairwise distance (`getMinHammingDist`, `getMinAbsoluteDist`) and
 the best-of-candidates selection (`bestMin*DistOfRandoms`).  The pairs are
 enumerated in the source's loop order: row `i` from the first to the last
 but one, and for each of them every later row `j`.
 */
module Selection {
  import opened Matrices
  import opened Distances

  /** The distance between rows `i` and `j` of `M`. */
  function PairDist(M: Matrix, metric: Metric, i: nat, j: nat): int
    requires Rect(M) && i < |M| && j < |M|
  {
    Dist(metric, M[i], M[j])
  }

  /** The distances from row `i` to each later row, in order. */
  function RowDists(M: Matrix, metric: Metric, i: nat): (ds: seq<int>)
    requires Rect(M) && i < |M|
    ensures |ds| == |M| - 1 - i
    ensures forall t :: 0 <= t < |ds| ==> ds[t] == PairDist(M, metric, i, i + 1 + t)
  {
    seq(|M| - 1 - i, t requires 0 <= t < |M| - 1 - i => PairDist(M, metric, i, i + 1 + t))
  }

  /** The distances of all pairs whose first row is below `i`, in loop order. */
  function PairsBefore(M: Matrix, metric: Metric, i: nat): seq<int>
    requires Rect(M) && i <= |M|
  {
    if i == 0 then [] else PairsBefore(M, metric, i - 1) + RowDists(M, metric, i - 1)
  }

  /** The distances of all unordered row pairs, in the order the source visits them. */
  function PairDists(M: Matrix, metric: Metric): seq<int>
    requires Rect(M)
  {
    if |M| == 0 then [] else PairsBefore(M, metric, |M| - 1)
  }

  lemma {:induction false} PairsBeforeCount(M: Matrix, metric: Metric, i: nat)
    requires Rect(M) && i <= |M|
    ensures 2 * |PairsBefore(M, metric, i)| == i * (2 * |M| - 1 - i)
  {
    if i > 0 {
      PairsBeforeCount(M, metric, i - 1);
    }
  }

  /** There are `m (m - 1) / 2` pairs among `m` rows. */
  lemma PairCount(M: Matrix, metric: Metric)
    requires Rect(M)
    ensures 2 * |PairDists(M, metric)| == |M| * (|M| - 1)
  {
    if |M| > 0 {
      PairsBeforeCount(M, metric, |M| - 1);
    }
  }

  lemma {:induction false} PairsBeforeMembers(M: Matrix, metric: Metric, i: nat)
    requires Rect(M) && i <= |M|
    ensures forall r, j :: 0 <= r < i && r < j < |M| ==>
      PairDist(M, metric, r, j) in PairsBefore(M, metric, i)
    ensures forall d :: d in PairsBefore(M, metric, i) ==>
      exists r, j :: 0 <= r < i && r < j < |M| && d == PairDist(M, metric, r, j)
  {
    if i > 0 {
      PairsBeforeMembers(M, metric, i - 1);
      var prev, row := PairsBefore(M, metric, i - 1), RowDists(M, metric, i - 1);
      assert PairsBefore(M, metric, i) == prev + row;
      forall r, j | 0 <= r < i && r < j < |M|
        ensures PairDist(M, metric, r, j) in prev + row
      {
        if r == i - 1 {
          assert row[j - i] == PairDist(M, metric, r, j);
        }
      }
      forall d | d in prev + row
        ensures exists r, j :: 0 <= r < i && r < j < |M| && d == PairDist(M, metric, r, j)
      {
        if d !in prev {
          var t :| 0 <= t < |row| && row[t] == d;
          assert d == PairDist(M, metric, i - 1, i + t);
        }
      }
    }
  }

  /** The pair distances are exactly the distances of rows `i < j`. */
  lemma PairDistsMembers(M: Matrix, metric: Metric)
    requires Rect(M)
    ensures forall i, j :: 0 <= i < j < |M| ==> PairDist(M, metric, i, j) in PairDists(M, metric)
    ensures forall d :: d in PairDists(M, metric) ==>
      exists i, j :: 0 <= i < j < |M| && d == PairDist(M, metric, i, j)
  {
    if |M| > 0 {
      PairsBeforeMembers(M, metric, |M| - 1);
    }
  }

  /** The running minimum over `ds`, starting from `acc`. */
  function MinOver(acc: int, ds: seq<int>): (r: int)
    ensures r <= acc && forall t :: 0 <= t < |ds| ==> r <= ds[t]
    ensures r == acc || r in ds
  {
    if |ds| == 0 then acc
    else
      var rest := MinOver(acc, ds[..|ds| - 1]);
      var d := ds[|ds| - 1];
      assert ds == ds[..|ds| - 1] + [d];
      if d < rest then d else rest
  }

  /** `getMin*Dist`: the smallest pair distance, starting from the book's size. */
  function MinDist(M: Matrix, metric: Metric): int
    requires Rect(M)
  {
    MinOver(Size(M), PairDists(M, metric))
  }

  /** The minimum is `min(m * n, smallest distance between rows i < j)`; with
      fewer than two rows there is no pair and the result is `m * n`. */
  lemma MinDistIsMinimum(M: Matrix, metric: Metric)
    requires Rect(M)
    ensures MinDist(M, metric) <= Size(M)
    ensures forall i, j :: 0 <= i < j < |M| ==> MinDist(M, metric) <= PairDist(M, metric, i, j)
    ensures MinDist(M, metric) == Size(M) ||
      exists i, j :: 0 <= i < j < |M| && MinDist(M, metric) == PairDist(M, metric, i, j)
    ensures |M| < 2 ==> MinDist(M, metric) == Size(M)
  {
    PairDistsMembers(M, metric);
    PairCount(M, metric);
    var ds := PairDists(M, metric);
    forall i, j | 0 <= i < j < |M|
      ensures MinDist(M, metric) <= PairDist(M, metric, i, j)
    {
      var t :| 0 <= t < |ds| && ds[t] == PairDist(M, metric, i, j);
    }
    if |M| < 2 {
      assert |ds| == 0;
    }
  }

  /** The score a candidate is ranked by: its row minimum plus its column minimum. */
  function Score(M: Matrix, metric: Metric): int
    requires Rect(M)
  {
    MinDist(M, metric) + MinDist(Transpose(M), metric)
  }

  /** The selection loop over the candidates' scores: the first score is
      the incumbent and a later one replaces it only when strictly larger. */
  method FirstMaximum(scores: seq<int>) returns (k: nat)
    requires |scores| >= 1
    ensures k < |scores|
    ensures forall t :: 0 <= t < |scores| ==> scores[t] <= scores[k]
    ensures forall t :: 0 <= t < k ==> scores[t] < scores[k]
  {
    k := 0;
    var bestScore := scores[0];
    var i := 1;
    while i < |scores|
      invariant 1 <= i <= |scores| && k < i && bestScore == scores[k]
      invariant forall t :: 0 <= t < i ==> scores[t] <= bestScore
      invariant forall t :: 0 <= t < k ==> scores[t] < bestScore
    {
      if scores[i] > bestScore {
        k, bestScore := i, scores[i];
      }
      i := i + 1;
    }
  }

  /** The scores of the candidates, in order. */
  function Scores(cands: seq<Matrix>, metric: Metric): (scores: seq<int>)
    requires forall t :: 0 <= t < |cands| ==> Rect(cands[t])
    ensures |scores| == |cands|
    ensures forall t :: 0 <= t < |cands| ==> scores[t] == Score(cands[t], metric)
  {
    seq(|cands|, t requires 0 <= t < |cands| => Score(cands[t], metric))
  }

  /** `bestMin*DistOfRandoms` over given candidates: the earliest candidate
      with the highest score wins, since only a strictly better one replaces
      the incumbent. */
  method BestOf(cands: seq<Matrix>, metric: Metric) returns (best: Matrix, k: nat)
    requires |cands| >= 1
    requires forall t :: 0 <= t < |cands| ==> Rect(cands[t])
    ensures k < |cands| && best == cands[k]
    ensures forall t :: 0 <= t < |cands| ==> Score(cands[t], metric) <= Score(best, metric)
    ensures forall t :: 0 <= t < k ==> Score(cands[t], metric) < Score(best, metric)
  {
    var scores := Scores(cands, metric);
    k := FirstMaximum(scores);
    best := cands[k];
  }
}

=== FILE: startbooks.dfy ===
/**
 The start pattern (`getStartBook`): the `b x b` control table that every
 expansion step substitutes into.  Odd bases use a closed form built from a
 top row; even bases border the table of `b - 1` with a row and a column of
 the symbol `b - 1`.
 */
module StartBooks {
  import opened Matrices

  /** The top row as the source's loop produces it: the counter `i` runs from
      `b` (at the top-level call) down to 1; at each step the current element
      is appended and then advanced by `i` modulo `b`. */
  function TopRowFrom(b: nat, i: nat, element: int): (row: seq<int>)
    requires b >= 1 && 0 <= element < b
    ensures |row| == i
    ensures forall t :: 0 <= t < i ==> 0 <= row[t] < b
  {
    if i == 0 then [] else [element] + TopRowFrom(b, i - 1, (element + i) % b)
  }

  /** The top row of the odd-base table. */
  function TopRow(b: nat): seq<int>
    requires b >= 1
  {
    TopRowFrom(b, b, 0)
  }

  lemma {:induction false} TopRowFromStep(b: nat, i: nat, element: int)
    requires b >= 1 && 0 <= element < b
    ensures i == 0 || TopRowFrom(b, i, element)[0] == element
    ensures forall t :: 0 <= t < i - 1 ==>
      TopRowFrom(b, i, element)[t + 1] == (TopRowFrom(b, i, element)[t] + i - t) % b
  {
    if i > 0 {
      var next := (element + i) % b;
      TopRowFromStep(b, i - 1, next);
      var row := TopRowFrom(b, i, element);
      var rest := TopRowFrom(b, i - 1, next);
      assert row == [element] + rest;
      forall t | 0 <= t < i - 1
        ensures row[t + 1] == (row[t] + i - t) % b
      {
        if t == 0 {
          assert row[1] == rest[0] == next;
        } else {
          assert row[t + 1] == rest[t] && row[t] == rest[t - 1];
          assert rest[(t - 1) + 1] == (rest[t - 1] + (i - 1) - (t - 1)) % b;
        }
      }
    }
  }

  /** The top row starts at 0 and each step adds the next smaller increment,
      beginning with `b` itself (so for `b >= 3` the first two entries are
      both 0). */
  lemma TopRowRecurrence(b: nat)
    requires b >= 1
    ensures |TopRow(b)| == b && TopRow(b)[0] == 0
    ensures forall k :: 0 <= k < b - 1 ==> TopRow(b)[k + 1] == (TopRow(b)[k] + b - k) % b
  {
    TopRowFromStep(b, b, 0);
  }

  /** `s` rotated right by `i` places: the last `i` entries moved to the front. */
  function RotateRight(s: seq<int>, i: nat): (r: seq<int>)
    requires i <= |s|
    ensures |r| == |s|
    ensures forall j :: 0 <= j < i ==> r[j] == s[|s| - i + j]
    ensures forall j :: i <= j < |s| ==> r[j] == s[j - i]
  {
    s[|s| - i..] + s[..|s| - i]
  }

  /** Row `i` of the odd-base table: the top row itself for `i == 0`, otherwise
      the top row rotated right by `i` with `i` added modulo `b`. */
  function OddRow(b: nat, top: seq<int>, i: nat): (row: seq<int>)
    requires b >= 1 && |top| == b && i < b
    requires forall t :: 0 <= t < b ==> 0 <= top[t] < b
    ensures |row| == b && forall j :: 0 <= j < b ==> 0 <= row[j] < b
  {
    if i == 0 then top
    else seq(b, j requires 0 <= j < b => (RotateRight(top, i)[j] + i) % b)
  }

  /** The closed-form table for an odd base. */
  function OddBook(b: nat): (S: Matrix)
    requires b >= 1
    ensures IsMatrix(S, b, b) && EntriesIn(S, b)
  {
    var top := TopRow(b);
    seq(b, i requires 0 <= i < b => OddRow(b, top, i))
  }

  /** The table of `b - 1` with a column of `b - 1` put in front of every row
      and a row of `b` copies of `b - 1` put on top. */
  function EvenBook(b: nat, inner: Matrix): (S: Matrix)
    requires b >= 2 && IsMatrix(inner, b - 1, b - 1) && EntriesIn(inner, b - 1)
    ensures IsMatrix(S, b, b) && EntriesIn(S, b)
  {
    [seq(b, j => b - 1)] + seq(b - 1, i requires 0 <= i < b - 1 => [b - 1] + inner[i])
  }

  /** `getStartBook`: base 1 takes the odd branch and gives `[[0]]`. */
  function StartBook(b: nat): (S: Matrix)
    requires b >= 1
    ensures IsMatrix(S, b, b) && EntriesIn(S, b)
    decreases b
  {
    if b % 2 == 1 then OddBook(b) else EvenBook(b, StartBook(b - 1))
  }

  lemma OddRowEntry(b: nat, top: seq<int>, i: nat, j: nat)
    requires b >= 1 && |top| == b && i < b && j < b
    requires forall t :: 0 <= t < b ==> 0 <= top[t] < b
    ensures OddRow(b, top, i)[j] == (top[(j - i) % b] + i) % b
  {
    var row := OddRow(b, top, i);
    if i == 0 {
      assert (j - i) % b == j by {
        DivModUnique(j, b, 0, j);
      }
      assert top[j] % b == top[j] by {
        DivModUnique(top[j], b, 0, top[j]);
      }
      assert row == top;
    } else {
      var rot := RotateRight(top, i);
      assert row[j] == (rot[j] + i) % b;
      if j >= i {
        assert (j - i) % b == j - i by {
          DivModUnique(j - i, b, 0, j - i);
        }
        assert rot[j] == top[j - i];
      } else {
        assert (j - i) % b == j - i + b by {
          DivModUnique(j - i, b, -1, j - i + b);
        }
        assert rot[j] == top[b - i + j];
      }
    }
  }

  lemma OddBookEntry(b: nat, i: nat, j: nat)
    requires b >= 1 && i < b && j < b
    ensures OddBook(b)[i][j] == (TopRow(b)[(j - i) % b] + i) % b
  {
    assert OddBook(b)[i] == OddRow(b, TopRow(b), i);
    OddRowEntry(b, TopRow(b), i, j);
  }

  /** Odd bases: entry `(i, j)` is the top-row entry `(j - i) mod b` plus `i`, modulo `b`. */
  lemma StartBookOdd(b: nat)
    requires b >= 1 && b % 2 == 1
    ensures forall i, j :: 0 <= i < b && 0 <= j < b ==>
      StartBook(b)[i][j] == (TopRow(b)[(j - i) % b] + i) % b
  {
    assert StartBook(b) == OddBook(b);
    forall i, j | 0 <= i < b && 0 <= j < b
      ensures OddBook(b)[i][j] == (TopRow(b)[(j - i) % b] + i) % b
    {
      OddBookEntry(b, i, j);
    }
  }

  /** Even bases: a border of `b - 1` along row 0 and column 0 around the
      table of base `b - 1`. */
  lemma StartBookEven(b: nat)
    requires b >= 2 && b % 2 == 0
    ensures forall j :: 0 <= j < b ==> StartBook(b)[0][j] == b - 1
    ensures forall i :: 0 <= i < b ==> StartBook(b)[i][0] == b - 1
    ensures forall i, j :: 1 <= i < b && 1 <= j < b ==>
      StartBook(b)[i][j] == StartBook(b - 1)[i - 1][j - 1]
  {
    var S, inner := StartBook(b), StartBook(b - 1);
    assert S == EvenBook(b, inner);
    assert S[0] == seq(b, j => b - 1);
    forall i | 1 <= i < b
      ensures S[i] == [b - 1] + inner[i - 1]
    {
    }
  }

  lemma TopRowThree()
    ensures TopRow(3) == [0, 0, 2]
  {
    assert TopRowFrom(3, 0, 2) == [];
    assert TopRowFrom(3, 1, 2) == [2];
    assert TopRowFrom(3, 2, 0) == [0, 2];
    assert TopRowFrom(3, 3, 0) == [0, 0, 2];
  }

  lemma StartBookOne()
    ensures StartBook(1) == [[0]]
  {
    assert TopRowFrom(1, 1, 0) == [0] + TopRowFrom(1, 0, 0);
    assert StartBook(1) == OddBook(1);
    assert StartBook(1)[0] == [0];
  }

  lemma StartBookTwo()
    ensures StartBook(2) == [[1, 1], [1, 0]]
  {
    StartBookOne();
    var s2 := StartBook(2);
    assert s2 == EvenBook(2, [[0]]);
    assert s2[0] == [1, 1] && s2[1] == [1, 0];
  }

  lemma StartBookThree()
    ensures StartBook(3) == [[0, 0, 2], [0, 1, 1], [2, 1, 2]]
  {
    TopRowThree();
    var top := TopRow(3);
    var s3 := OddBook(3);
    assert StartBook(3) == s3;
    var r1, r2 := OddRow(3, top, 1), OddRow(3, top, 2);
    assert s3 == [top, r1, r2];
    var rot1, rot2 := RotateRight(top, 1), RotateRight(top, 2);
    assert rot1 == [2, 0, 0] && rot2 == [0, 2, 0];
    assert r1[0] == 0 && r1[1] == 1 && r1[2] == 1;
    assert r2[0] == 2 && r2[1] == 1 && r2[2] == 2;
    assert r1 == [0, 1, 1] && r2 == [2, 1, 2];
  }

  /** The tables for the three smallest bases, as the source computes them. */
  lemma StartBookSmall()
    ensures StartBook(1) == [[0]]
    ensures StartBook(2) == [[1, 1], [1, 0]]
    ensures StartBook(3) == [[0, 0, 2], [0, 1, 1], [2, 1, 2]]
  {
    StartBookOne();
    StartBookTwo();
    StartBookThree();
  }

  /** The odd-base rows are not permutations of the alphabet: base 3 repeats 0 in row 0. */
  lemma StartBookNotLatin()
    ensures exists j, j' :: 0 <= j < j' < 3 && StartBook(3)[0][j] == StartBook(3)[0][j']
  {
    StartBookSmall();
    assert StartBook(3)[0][0] == StartBook(3)[0][1];
  }
}

=== FILE: statistics.dfy ===
/**
 The pair statistics of `makeBookWithInfo`: for each metric, a pass over the
 row pairs and a pass over the column pairs, each keeping a running minimum
 (started at the width of the compared vectors), a running maximum (started
 at 0), a total, a total "space" and a count.  The averages are Python float
 divisions and are modelled as exact `real` quotients.
 */
module Statistics {
  import opened Matrices
  import opened Results
  import opened Distances
  import opened Selection

  /** The accumulators of one pass. */
  datatype Tally = Tally(min: int, max: int, total: int, space: real, count: nat)

  /** The accumulators before the first pair: the minimum starts at `cap`. */
  function Start(cap: int): Tally {
    Tally(cap, 0, 0, 0.0, 0)
  }

  function RealAbs(x: real): real {
    if x < 0.0 then -x else x
  }

  /** How far a distance is from `width - width / base`, the source's "space". */
  function Space(d: int, width: int, base: int): real
    requires base != 0
  {
    RealAbs(d as real - width as real + width as real / base as real)
  }

  /** One pair's update of the accumulators. */
  function Step(t: Tally, d: int, width: int, base: int): Tally
    requires base != 0
  {
    Tally(if d < t.min then d else t.min,
          if d > t.max then d else t.max,
          t.total + d,
          t.space + Space(d, width, base),
          t.count + 1)
  }

  /** The accumulators after the distances `ds`, visited in order. */
  function TallyOver(start: Tally, ds: seq<int>, width: int, base: int): Tally
    requires base != 0
  {
    if |ds| == 0 then start
    else Step(TallyOver(start, ds[..|ds| - 1], width, base), ds[|ds| - 1], width, base)
  }

  /** The running maximum over `ds`, from `acc`. */
  function MaxOver(acc: int, ds: seq<int>): (r: int)
    ensures r >= acc && forall t :: 0 <= t < |ds| ==> r >= ds[t]
    ensures r == acc || r in ds
  {
    if |ds| == 0 then acc
    else
      var rest := MaxOver(acc, ds[..|ds| - 1]);
      var d := ds[|ds| - 1];
      assert ds == ds[..|ds| - 1] + [d];
      if d > rest then d else rest
  }

  function Sum(ds: seq<int>): int {
    if |ds| == 0 then 0 else Sum(ds[..|ds| - 1]) + ds[|ds| - 1]
  }

  /** The pass computes the minimum from `cap`, the maximum from 0, the sum and
      the number of the distances. */
  lemma {:induction false} TallyOverFields(cap: int, ds: seq<int>, width: int, base: int)
    requires base != 0
    ensures TallyOver(Start(cap), ds, width, base).min == MinOver(cap, ds)
    ensures TallyOver(Start(cap), ds, width, base).max == MaxOver(0, ds)
    ensures TallyOver(Start(cap), ds, width, base).total == Sum(ds)
    ensures TallyOver(Start(cap), ds, width, base).count == |ds|
  {
    if |ds| > 0 {
      TallyOverFields(cap, ds[..|ds| - 1], width, base);
    }
  }

  /** A sum of values in `[lo, hi]` lies between `lo` and `hi` times their number. */
  lemma {:induction false} SumBetween(ds: seq<int>, lo: int, hi: int)
    requires forall t :: 0 <= t < |ds| ==> lo <= ds[t] <= hi
    ensures lo * |ds| <= Sum(ds) <= hi * |ds|
  {
    if |ds| > 0 {
      SumBetween(ds[..|ds| - 1], lo, hi);
      assert lo * |ds| == lo * (|ds| - 1) + lo;
      assert hi * |ds| == hi * (|ds| - 1) + hi;
    }
  }

  /** `min * count <= total <= max * count` at the end of a pass. */
  lemma TallyBounds(cap: int, ds: seq<int>, width: int, base: int)
    requires base != 0
    ensures var t := TallyOver(Start(cap), ds, width, base);
      t.min * t.count <= t.total <= t.max * t.count
  {
    TallyOverFields(cap, ds, width, base);
    SumBetween(ds, MinOver(cap, ds), MaxOver(0, ds));
  }

  lemma TallyOverSnoc(start: Tally, ds: seq<int>, d: int, width: int, base: int)
    requires base != 0
    ensures TallyOver(start, ds + [d], width, base) == Step(TallyOver(start, ds, width, base), d, width, base)
  {
    assert (ds + [d])[..|ds|] == ds;
  }

  /** One more distance of the current row taken into the accumulators. */
  lemma PassStep(start: Tally, done: seq<int>, row: seq<int>, k: nat, width: int, base: int)
    requires base != 0 && k < |row|
    ensures TallyOver(start, done + row[..k + 1], width, base) ==
      Step(TallyOver(start, done + row[..k], width, base), row[k], width, base)
  {
    assert done + row[..k + 1] == (done + row[..k]) + [row[k]];
    TallyOverSnoc(start, done + row[..k], row[k], width, base);
  }

  /** The inner loop: row `i` against every later row, continuing the
      accumulators `t0` of the distances `done` already visited. */
  method RowPass(M: Matrix, metric: Metric, i: nat, start: Tally, t0: Tally, ghost done: seq<int>,
                 width: int, base: int) returns (t: Tally)
    requires Rect(M) && i < |M| && base != 0
    requires t0 == TallyOver(start, done, width, base)
    ensures t == TallyOver(start, done + RowDists(M, metric, i), width, base)
  {
    ghost var row := RowDists(M, metric, i);
    assert done + row[..0] == done;
    t := t0;
    var j := i + 1;
    while j < |M|
      invariant i + 1 <= j <= |M|
      invariant t == TallyOver(start, done + row[..j - i - 1], width, base)
    {
      var dist := PairDist(M, metric, i, j);
      PassStep(start, done, row, j - i - 1, width, base);
      t := Step(t, dist, width, base);
      j := j + 1;
    }
    assert row[..j - i - 1] == row;
  }

  /** The nested pair loop of one pass, as the source writes it: row `i`
      from the first to the last but one, then every later row `j`. */
  method PairPass(M: Matrix, metric: Metric, cap: int, width: int, base: int) returns (t: Tally)
    requires Rect(M) && base != 0
    ensures t == TallyOver(Start(cap), PairDists(M, metric), width, base)
  {
    t := Start(cap);
    if |M| > 0 {
      var i := 0;
      while i < |M| - 1
        invariant 0 <= i <= |M| - 1
        invariant t == TallyOver(Start(cap), PairsBefore(M, metric, i), width, base)
      {
        t := RowPass(M, metric, i, Start(cap), t, PairsBefore(M, metric, i), width, base);
        i := i + 1;
      }
    }
  }

  /** A pass over the rows of `M` takes `m (m - 1) / 2` distances. */
  lemma PassCount(M: Matrix, metric: Metric, cap: int, width: int, base: int)
    requires Rect(M) && base != 0
    ensures 2 * TallyOver(Start(cap), PairDists(M, metric), width, base).count == |M| * (|M| - 1)
  {
    TallyOverFields(cap, PairDists(M, metric), width, base);
    PairCount(M, metric);
  }

  /** The figures one pass reports. */
  datatype Summary = Summary(minDist: int, maxDist: int, avgDist: real, avgSpace: real)

  /** One pass of `makeBookWithInfo` over the rows of `M`: with no pair the
      average divides by zero, and with base 0 the space divides by zero. */
  function Pass(M: Matrix, metric: Metric, width: int, base: int): (r: Result<Summary>)
    requires Rect(M)
    ensures |M| < 2 ==> r == Err(NoPairs)
    ensures |M| >= 2 && base == 0 ==> r == Err(InvalidBase)
    ensures r.Ok? <==> |M| >= 2 && base != 0
  {
    if |M| < 2 then Err(NoPairs)
    else if base == 0 then Err(InvalidBase)
    else
      var t := TallyOver(Start(width), PairDists(M, metric), width, base);
      PairCount(M, metric);
      TallyOverFields(width, PairDists(M, metric), width, base);
      Ok(Summary(t.min, t.max, t.total as real / t.count as real, t.space / t.count as real))
  }

  /** A quotient of a total lies between the bounds it was a multiple of. */
  lemma AverageBetween(lo: int, hi: int, total: int, count: int)
    requires count > 0 && lo * count <= total <= hi * count
    ensures lo as real <= total as real / count as real <= hi as real
  {
    var avg := total as real / count as real;
    assert avg * count as real == total as real;
    assert (lo * count) as real == lo as real * count as real;
    assert (hi * count) as real == hi as real * count as real;
  }

  /** The bounds a pass over any distances keeps: the minimum is capped at
      `cap` and below every distance, the maximum above every distance, and
      the average lies between them. */
  lemma TallyFacts(cap: int, ds: seq<int>, width: int, base: int)
    requires |ds| >= 1 && base != 0 && forall k :: 0 <= k < |ds| ==> ds[k] >= 0
    ensures var t := TallyOver(Start(cap), ds, width, base);
      && t.count == |ds|
      && t.min <= cap && (forall k :: 0 <= k < |ds| ==> t.min <= ds[k] <= t.max)
      && (t.min == cap || t.min in ds) && t.max in ds
      && t.min as real <= t.total as real / t.count as real <= t.max as real
      && t.space / t.count as real >= 0.0
  {
    var t := TallyOver(Start(cap), ds, width, base);
    TallyOverFields(cap, ds, width, base);
    TallyBounds(cap, ds, width, base);
    SpaceNonNegative(Start(cap), ds, width, base);
    AverageBetween(t.min, t.max, t.total, t.count);
    if t.max == 0 {
      assert ds[0] == 0;
    }
  }

  /** The summary a successful pass reports, read off its accumulators. */
  lemma PassValue(M: Matrix, metric: Metric, width: int, base: int)
    requires Rect(M) && |M| >= 2 && base != 0
    ensures var t := TallyOver(Start(width), PairDists(M, metric), width, base);
      Pass(M, metric, width, base) ==
        Ok(Summary(t.min, t.max, t.total as real / t.count as real, t.space / t.count as real))
  {
  }

  /** What one successful pass reports: the minimum is the smallest pair
      distance capped at `width`, the maximum the largest one, and the
      average lies between them. */
  lemma PassFacts(M: Matrix, metric: Metric, width: int, base: int)
    requires Rect(M) && |M| >= 2 && base != 0
    ensures Pass(M, metric, width, base).Ok?
    ensures var s := Pass(M, metric, width, base).value;
      && s.minDist <= width
      && (forall i, j :: 0 <= i < j < |M| ==> s.minDist <= PairDist(M, metric, i, j) <= s.maxDist)
      && (s.minDist == width || exists i, j :: 0 <= i < j < |M| && s.minDist == PairDist(M, metric, i, j))
      && (exists i, j :: 0 <= i < j < |M| && s.maxDist == PairDist(M, metric, i, j))
      && s.minDist as real <= s.avgDist <= s.maxDist as real
      && s.avgSpace >= 0.0
  {
    var ds := PairDists(M, metric);
    PairCount(M, metric);
    PairDistsMembers(M, metric);
    PairDistsNonNegative(M, metric);
    TallyFacts(width, ds, width, base);
    PassValue(M, metric, width, base);
    forall i, j | 0 <= i < j < |M|
      ensures PairDist(M, metric, i, j) in ds
    {
    }
  }

  lemma PairDistsNonNegative(M: Matrix, metric: Metric)
    requires Rect(M)
    ensures forall k :: 0 <= k < |PairDists(M, metric)| ==> PairDists(M, metric)[k] >= 0
  {
    var ds := PairDists(M, metric);
    PairDistsMembers(M, metric);
    forall k | 0 <= k < |ds|
      ensures ds[k] >= 0
    {
      assert ds[k] in ds;
    }
  }

  lemma {:induction false} SpaceNonNegative(start: Tally, ds: seq<int>, width: int, base: int)
    requires base != 0 && start.space >= 0.0
    ensures TallyOver(start, ds, width, base).space >= 0.0
  {
    if |ds| > 0 {
      SpaceNonNegative(start, ds[..|ds| - 1], width, base);
    }
  }

  /** The statistics `makeBookWithInfo` records for a book. */
  datatype Info = Info(
    book: Matrix, width: int, height: int, base: int,
    rowHamming: Summary, columnHamming: Summary,
    rowAbsolute: Summary, columnAbsolute: Summary)

  /** `makeBookWithInfo` once the book is chosen: the four passes in the
      source's order, the first failing one deciding the error. */
  function Describe(book: Matrix, base: int, m: nat, n: nat): (r: Result<Info>)
    requires IsMatrix(book, m, n)
    ensures m < 2 ==> r == Err(NoPairs)
    ensures m >= 2 && base == 0 ==> r == Err(InvalidBase)
    ensures m >= 2 && base != 0 && n < 2 ==> r == Err(NoPairs)
    ensures r.Ok? <==> m >= 2 && n >= 2 && base != 0
    ensures r.Ok? ==> r.value.book == book && r.value.width == n && r.value.height == m && r.value.base == base
    ensures r.Ok? ==>
      && Pass(book, Hamming, n, base) == Ok(r.value.rowHamming)
      && Pass(Transpose(book), Hamming, m, base) == Ok(r.value.columnHamming)
      && Pass(book, Absolute, n, base) == Ok(r.value.rowAbsolute)
      && Pass(Transpose(book), Absolute, m, base) == Ok(r.value.columnAbsolute)
  {
    var columns := Transpose(book);
    match Pass(book, Hamming, n, base)
    case Err(e) => Err(e)
    case Ok(rowH) =>
      match Pass(columns, Hamming, m, base)
      case Err(e) => Err(e)
      case Ok(colH) =>
        var rowA := Pass(book, Absolute, n, base).value;
        var colA := Pass(columns, Absolute, m, base).value;
        Ok(Info(book, n, m, base, rowH, colH, rowA, colA))
  }
  /** The bounds every summary of the `makeBookWithInfo` record keeps (the
      record exists exactly under these requires, by `Describe`): each
      minimum is capped at the compared width (`n` for rows, `m` for
      columns) and each average lies between its minimum and maximum. */
  lemma DescribeFacts(book: Matrix, base: int, m: nat, n: nat)
    requires IsMatrix(book, m, n) && m >= 2 && n >= 2 && base != 0
    ensures var info := Describe(book, base, m, n).value;
      && info.rowHamming.minDist <= n && info.rowAbsolute.minDist <= n
      && info.columnHamming.minDist <= m && info.columnAbsolute.minDist <= m
      && info.rowHamming.minDist as real <= info.rowHamming.avgDist <= info.rowHamming.maxDist as real
      && info.columnHamming.minDist as real <= info.columnHamming.avgDist <= info.columnHamming.maxDist as real
      && info.rowAbsolute.minDist as real <= info.rowAbsolute.avgDist <= info.rowAbsolute.maxDist as real
      && info.columnAbsolute.minDist as real <= info.columnAbsolute.avgDist <= info.columnAbsolute.maxDist as real
  {
    var columns := Transpose(book);
    PassFacts(book, Hamming, n, base);
    PassFacts(book, Absolute, n, base);
    PassFacts(columns, Hamming, m, base);
    PassFacts(columns, Absolute, m, base);
  }
}
